=== FILE: README.md ===
# video-whisper transcriber: a verified model of its name handling and batch decisions

The transcriber scans a folder for video files, extracts each one's audio track with
ffmpeg, sends the audio to a speech-to-text service, and writes the text next to the other
transcripts. Almost all of that is input/output. Three pieces hold real logic, and this
project models them in Dafny and proves properties about them:

- **The file-name sanitizer** (`sanitize_filename`). It turns a video path, or `None`, into
  the base name used for both the temporary `.mp3` and the `.txt` transcript. It has five
  steps, and each one is a function here:
  - `None` becomes `untitled`.
  - The POSIX basename is taken (`Paths.Basename`).
  - The extension is dropped with Python's `splitext` rule, including its leading-dots
    exception (`Paths.SplitExt`, `FileNames.Stem`).
  - Each of `<>:"/\|?*` becomes `_` (`FileNames.ReplaceForbidden`), and runs of `_` are
    squeezed to one (`FileNames.Squeeze`).
  - `_` and spaces are stripped from both ends (`FileNames.Strip`). If nothing is left, the
    result is `untitled_video_file`.
- **The extension filter.** A listed entry counts as a video when it is a regular file and
  its lower-cased name ends with one of eleven extensions (module `VideoFiles`).
- **The per-video decision** in `process_video_folder` (module `Pipeline`). From what
  extraction and transcription produced, it decides:
  - which audio file is submitted for transcription;
  - whether the transcript is saved, and under which name;
  - whether the temporary audio file is removed;
  - what is reported.

  `None` from transcription means failure. An empty string is a successful transcript and
  is saved.

Python's `None` is `Wrappers.Option`. Strings are `seq<char>`. A Dafny `char` is a Unicode
scalar value, so it cannot be a lone surrogate, which a Python `str` can hold (see
"Left out").

Two behaviours of the code are worth stating plainly:
- `sanitize_filename(None)` gives `untitled`, while `sanitize_filename("")` gives
  `untitled_video_file`. The two fallbacks differ.
- Only runs of `_` are squeezed. Runs of spaces inside a name are kept.

`Pipeline.TranscriptShared` proves a consequence of the naming scheme. Two names that
differ only in their supported extension, such as `a.mp4` and `a.mkv`, are both accepted
and share one transcript path, provided the part before the extension has no `/` and is
not only dots. When both transcripts are saved, the later write replaces the earlier one.
If the later transcription fails, nothing is saved for it and the earlier transcript
stays. The source does not say whether this sharing is intended.

## Model

| member | source | states |
|---|---|---|
| Paths.Basename | transcribe.py:26 | the basename is the suffix of the path after its last `/`: it holds no `/`, and it is either the whole path or preceded by a `/` |
| Paths.Join | transcribe.py:162 | a name starting with `/` replaces the folder; otherwise one `/` is put between folder and name, unless the folder is empty or already ends with `/`, when they are simply concatenated |
| Paths.JoinUnder | transcribe.py:48 | a `/`-free name joined onto a folder that does not end in `/` gets exactly one `/` in between, and the basename of the result is the name |
| Paths.BasenameOfJoin | transcribe.py:184 | joining a `/`-free entry name onto any folder and taking the basename gives the entry name back |
| Paths.SplitExt | transcribe.py:26 | root and extension concatenate back to the path; a non-empty extension starts with the last `.` and holds no other `.` or `/`; the extension is non-empty exactly when some `.` of the last component follows a character that is not `.` |
| Paths.SplitExtOf | transcribe.py:26 | a `/`-free root that is not all dots, followed by a one-dot extension, splits exactly there |
| FileNames.Stem | transcribe.py:26 | the stem is a prefix of the basename and contains no `/`; without an extension it is the whole basename; with one, the basename continues after the stem with a `.` and holds no further `.` |
| FileNames.ReplaceForbidden | transcribe.py:27 | same length; no forbidden character remains; forbidden characters become `_` and all others are kept in place |
| FileNames.ReplaceKeepsPlain | transcribe.py:27 | replacing keeps the characters that are neither forbidden nor `_`/space, in order and number |
| FileNames.ReplaceConcat | transcribe.py:27 | replacing works character by character: it splits at any boundary of the input |
| FileNames.Squeeze | transcribe.py:28 | the result has no `__`; it keeps the first and last characters and every non-`_` character in order; it uses only characters of the input |
| FileNames.SqueezeNoDouble | transcribe.py:28 | squeezing a string without `__` returns it unchanged |
| FileNames.SqueezeDropsRepeated | transcribe.py:28 | squeezing equals leaving out exactly those `_` that directly follow another `_`, and nothing else |
| FileNames.Strip | transcribe.py:29 | the result is a contiguous piece of the input with only `_`/space before and after it; it neither starts nor ends with `_` or space; it keeps every character that is not `_`/space; it stays free of `__` when the input was |
| FileNames.StripUnique | transcribe.py:29 | any piece of the input with only `_`/space around it that neither starts nor ends with `_` or space is the stripped result: stripping removes exactly the edge runs |
| FileNames.Tidy | transcribe.py:27-29 | replace, squeeze and strip together give no forbidden character, no `__` and no edge `_`/space; they keep exactly the stem's plain characters, in order; the result is empty iff the stem has no plain character |
| FileNames.Clean | transcribe.py:27-31 | the fallback `untitled_video_file` is returned when the stem has no plain character; otherwise the stem's plain characters survive in order; the result is non-empty and clean |
| FileNames.TidyJoinsWords | transcribe.py:27-29 | two words of plain characters separated by any non-empty run of forbidden characters and `_` come out joined by exactly one `_` |
| FileNames.TidyTrimsEnds | transcribe.py:27-31 | a word of plain characters wrapped on both sides in any forbidden characters, `_` and spaces comes out bare |
| FileNames.Sanitize | transcribe.py:18-32 | for every input, including `None`: the result is non-empty, has none of `<>:"/\|?*`, has no `__`, and neither starts nor ends with `_` or space |
| FileNames.SanitizeKeepsAlnum | transcribe.py:27-31 | every ASCII letter and digit of the stem appears in the result in the same order and number, and such a stem never reaches the fallback |
| FileNames.CleanFixedPoint | transcribe.py:27-31 | a non-empty name without forbidden characters, `__` or edge `_`/space passes the cleaning steps unchanged |
| FileNames.CleanIdempotent | transcribe.py:27-31 | cleaning an already cleaned stem changes nothing |
| FileNames.StemOfPlainName | transcribe.py:26 | a name without `/` and `.` is its own stem |
| FileNames.SanitizeIdempotentWithoutDot | transcribe.py:18-32 | sanitizing a sanitized name changes nothing when that name has no `.` |
| FileNames.SanitizeNotIdempotent | transcribe.py:26 | `a.b.c` sanitizes to `a.b`, which sanitizes to `a`: with a dot the sanitizer is not idempotent |
| FileNames.SanitizeBasename | transcribe.py:26 | only the last path component affects the result |
| FileNames.SanitizeJoin | transcribe.py:184 | the folder a video name is joined onto does not affect the result |
| FileNames.SanitizeIgnoresExtension | transcribe.py:26 | a root with two different one-dot extensions sanitizes the same way, to the cleaned root |
| FileNames.SanitizeOf | transcribe.py:26-31 | a path made of a folder part, a `/`-free root that is not all dots and a one-dot extension sanitizes to the cleaned root |
| FileNames.SanitizeNone | transcribe.py:23-24 | `None` yields exactly `untitled` |
| FileNames.FallbacksDiffer | transcribe.py:23-31 | `None` and `""` give different results |
| FileNames.SanitizeEmptyStems | transcribe.py:30-31 | `""`, `___` and `?*.mp4` yield exactly `untitled_video_file` |
| FileNames.SanitizePathExamples | transcribe.py:26-29 | `My:Video/Clip*.mp4` yields `Clip` and `dir/My:Video.mp4` yields `My_Video` |
| VideoFiles.LowerChar | transcribe.py:163 | ASCII capitals map to their small letters and KELVIN SIGN maps to `k`; every other character is kept |
| VideoFiles.Lower | transcribe.py:163 | lower-casing keeps the length and lower-cases each character in place |
| VideoFiles.EndsWithAny | transcribe.py:163 | a tuple `endswith` holds iff one of the suffixes ends the string |
| VideoFiles.IsSupportedVideo | transcribe.py:163 | a name is accepted iff its lower-cased form ends with one of the listed extensions |
| VideoFiles.ExtensionShape | transcribe.py:12-15 | each of the eleven extensions is one `.` followed by characters that are neither `.` nor `/` |
| VideoFiles.ExtensionLowerCase | transcribe.py:12-15 | each of the eleven extensions is already lower case: lower-casing leaves it unchanged |
| VideoFiles.ExtensionAccepted | transcribe.py:163 | any name followed by one of the supported extensions is accepted |
| VideoFiles.LowerIdempotent | transcribe.py:163 | lower-casing twice equals lower-casing once |
| VideoFiles.SupportedIgnoresCase | transcribe.py:163 | a name and its lower-cased form are accepted alike |
| VideoFiles.VideoStem | transcribe.py:26 | for an accepted `/`-free name, the stem is the name minus exactly the matched extension, in its original case, unless the rest is all dots |
| VideoFiles.UpperCaseAccepted | transcribe.py:163 | `A.MP4` is accepted |
| VideoFiles.TrailingExtensionRejected | transcribe.py:163 | `x.mp4.txt` is rejected |
| Pipeline.FindVideos | transcribe.py:160-164 | the scanning loop returns the joined paths of exactly the file entries with a supported name, in listing order |
| Pipeline.VideoPaths | transcribe.py:160-164 | every selected path is the folder joined with the name of some file entry whose name is supported, and every such entry's joined path is selected; never more paths than entries |
| Pipeline.VideoPathsConcat | transcribe.py:161-164 | selecting from a listing split in two gives the paths of the first part followed by those of the second, so paths appear in listing order |
| Pipeline.VideoPathsSingle | transcribe.py:162-164 | a single entry gives its joined path once if it is a supported regular file, and nothing otherwise |
| Pipeline.AudioPath | transcribe.py:47-48 | the audio file lies directly inside the temporary folder, and its name is the sanitized video path followed by `.mp3` |
| Pipeline.TranscriptPath | transcribe.py:143 | the transcript path is the transcription folder, `/`, the base name and `.txt`, unless the base name starts with `/`, which `os.path.join` then keeps alone; for a `/`-free base name the file name is the base name followed by `.txt` |
| Pipeline.Decide | transcribe.py:177-197 | audio is submitted and later removed iff extraction gave a non-empty, existing path; the transcript is saved iff that holds and transcription did not return `None`, so an empty text is saved; the saved name is the sanitized video path; the report says extraction failed, transcription failed or saved, to match |
| Pipeline.EmptyTranscriptSaved | transcribe.py:185-186 | an empty successful transcription is saved as an empty transcript |
| Pipeline.CleanupIgnoresTranscript | transcribe.py:190-195 | whether the temporary audio is removed does not depend on the transcription outcome |
| Pipeline.DecideAll | transcribe.py:173-197 | every listed video gets exactly the decision computed from its own extraction and transcription results, in listing order, and a failure reported for one video does not end the loop |
| Pipeline.ProcessFolder | transcribe.py:152-197 | a missing folder and a folder without videos are reported apart; otherwise every selected video is decided, in listing order |
| Pipeline.TranscriptNamedLikeAudio | transcribe.py:184 | a saved transcript's base name equals the base of the extracted audio's file name, and depends only on the entry name |
| Pipeline.TranscriptShared | transcribe.py:143 | for every `/`-free root that is not only dots and any two supported extensions, both names are accepted and map to the same transcript path |
| Pipeline.TranscriptCollision | transcribe.py:143 | `a.mp4` and `a.mkv` are both accepted and map to the same transcript path |

## Left out

- Audio extraction (`extract_audio_from_video`) runs ffmpeg and checks and removes files. It is an input here: the returned path and whether the file exists (`Pipeline.VideoRun`).
- Transcription (`transcribe_audio_openai`) is a network call. So are its guards: a missing API key, or an audio file that does not exist. All of these are covered by the `Option<string>` outcome the decision takes as input.
- Writing the transcript (`save_transcription`) and removing the temporary audio are file operations. The model produces the request (`SaveRequest`, `removeAudio`); a write or removal that fails is not modelled, and neither is the message that reports it.
- The folder listing (`os.listdir`) and the `isfile` test are file-system queries. They are inputs here: a sequence of `DirEntry`, whose order is the listing's order. `os.listdir` (transcribe.py:161) can still raise after `os.path.isdir` succeeded, for example `PermissionError` on an unreadable folder. Nothing catches it, so the program ends. `Pipeline.ProcessFolder` always returns one of its three outcomes and does not model this.
- `main` is left out. It prompts the user for the folder, loads the environment, creates both working folders (transcribe.py:233-234) before the batch, and removes the temporary folder afterwards when it is empty. None of that is a decision the model covers.
- Printed messages are reduced to the three outcomes of `Pipeline.Report`.
- Windows path rules are not modelled: only `/` separates path components, as in `posixpath`. A `\` is later replaced by `_`.
- VideoFiles.LowerChar: it does not model all of Python's `str.lower`. It covers only the characters that can change the suffix test: ASCII capitals, and KELVIN SIGN, whose lower case is ASCII `k`. Other characters are kept as they are. The suffix test still agrees with Python, for two reasons. Other ASCII characters are their own lower case. A non-ASCII character either lower-cases to non-ASCII text, or (LATIN CAPITAL LETTER I WITH DOT ABOVE) to `i` followed by a combining mark. No extension contains any of that, so a suffix that covers such a character fails either way.
- VideoFiles.Lower: it keeps the length of the name, which Python's `str.lower` does not for LATIN CAPITAL LETTER I WITH DOT ABOVE (one character becomes two). The lower-cased name is used only for the suffix test, which agrees with Python for the reasons given for `VideoFiles.LowerChar`.
- FileNames.Squeeze: its contract does not say where each kept underscore sits. It states no `__`, the same first and last characters, and the same non-`_` characters. The exact position-by-position description is the separate lemma `FileNames.SqueezeDropsRepeated`.
- FileNames.Tidy: its contract keeps the plain characters in order but does not say where the remaining `_` sit between them. `FileNames.TidyJoinsWords` and `FileNames.TidyTrimsEnds` state this for two words around a separator run and for one word inside junk runs. A general statement for any number of words is not proved.
- FileNames.Clean: the same as for `FileNames.Tidy`, because a non-empty tidied stem is the result of `Clean`.
- Names that are not valid Unicode text are not modelled. `os.listdir` (transcribe.py:161) turns undecodable bytes of a file name into lone surrogates U+DC80 to U+DCFF, and a Dafny `char` cannot hold those.
- The temporary audio file is state shared between videos, and the model leaves it out. Its path depends only on the sanitized video name (transcribe.py:47-48), and extraction reuses any file already at that path (transcribe.py:51-53). If removing it fails (transcribe.py:191-195), a later video with the same sanitized name gets the stale audio. The model takes each video's extraction result as an independent input.
- Folder creation (`os.makedirs`, transcribe.py:45 and 140) is outside any `try`. An `OSError` there ends the whole batch, and the model does not include that failure.

=== FILE: filenames.dfy ===
/**
  The file-name sanitizer: a video path (or Python's `None`) becomes the base name under
  which the extracted audio and the transcript are stored. Five steps:
  fall back to `untitled` for `None`; keep the last path component; drop its extension;
  replace each of the nine characters `<>:"/\|?*` by `_` and squeeze runs of `_` to one;
  strip `_` and space from both ends, falling back to `untitled_video_file` when nothing
  is left.
 */
module FileNames {
  import opened Wrappers
  import Paths

  /** The name used when there is no name at all (`None`). */
  const Untitled: string := "untitled"

  /** The name used when sanitizing leaves nothing. */
  const UntitledVideoFile: string := "untitled_video_file"

  /** The regular-expression class `[<>:"/\\|?*]`: nine characters. */
  predicate IsForbidden(c: char) {
    c == '<' || c == '>' || c == ':' || c == '"' || c == '/' || c == '\\' || c == '|' || c == '?' || c == '*'
  }

  /** The characters `strip('_ ')` removes from the ends. */
  predicate IsEdge(c: char) {
    c == '_' || c == ' '
  }

  predicate NotUnderscore(c: char) {
    c != '_'
  }

  predicate NotEdge(c: char) {
    !IsEdge(c)
  }

  /** Characters that every step leaves in place: neither replaced, squeezed nor stripped. */
  predicate IsPlain(c: char) {
    !IsForbidden(c) && !IsEdge(c)
  }

  predicate IsAsciiAlnum(c: char) {
    'a' <= c <= 'z' || 'A' <= c <= 'Z' || '0' <= c <= '9'
  }

  /** No two adjacent underscores. */
  ghost predicate NoDoubleUnderscore(s: string) {
    forall i, j :: 0 <= i < j < |s| && j == i + 1 ==> !(s[i] == '_' && s[j] == '_')
  }

  /** No character of `s` is forbidden. */
  predicate NoForbidden(s: string) {
    forall k :: 0 <= k < |s| ==> !IsForbidden(s[k])
  }

  // ---------------------------------------------------------------------------
  // Subsequences selected by a character class
  // ---------------------------------------------------------------------------

  /** The characters of `s` satisfying `p`, in their original order and number. */
  function Select(p: char -> bool, s: string): (r: string)
    ensures |r| <= |s|
    ensures forall k :: 0 <= k < |r| ==> p(r[k])
  {
    if |s| == 0 then [] else (if p(s[0]) then [s[0]] else []) + Select(p, s[1..])
  }

  lemma {:induction false} SelectConcat(p: char -> bool, a: string, b: string)
    ensures Select(p, a + b) == Select(p, a) + Select(p, b)
  {
    if |a| == 0 {
      assert a + b == b;
    } else {
      assert (a + b)[1..] == a[1..] + b;
      SelectConcat(p, a[1..], b);
    }
  }

  /** Selecting by `p` after selecting by a weaker `q` is selecting by `p` alone. */
  lemma {:induction false} SelectNarrower(p: char -> bool, q: char -> bool, s: string)
    requires forall c :: p(c) ==> q(c)
    ensures Select(p, Select(q, s)) == Select(p, s)
  {
    if |s| > 0 {
      SelectNarrower(p, q, s[1..]);
      var head := if q(s[0]) then [s[0]] else [];
      SelectConcat(p, head, Select(q, s[1..]));
      assert Select(p, head) == (if p(s[0]) then [s[0]] else []) by {
        if q(s[0]) { assert head[1..] == []; }
      }
    }
  }

  // ---------------------------------------------------------------------------
  // The steps
  // ---------------------------------------------------------------------------

  /** The last component of `n` without its extension (`splitext(basename(n))[0]`). */
  function Stem(n: string): (stem: string)
    ensures Paths.Sep !in stem
    ensures |stem| <= |Paths.Basename(n)| && stem == Paths.Basename(n)[..|stem|]
    ensures !Paths.HasExtension(Paths.Basename(n)) ==> stem == Paths.Basename(n)
    ensures Paths.HasExtension(Paths.Basename(n)) ==>
              |stem| < |Paths.Basename(n)| && Paths.Basename(n)[|stem|] == Paths.ExtSep
              && Paths.ExtSep !in Paths.Basename(n)[|stem| + 1..]
  {
    var b := Paths.Basename(n);
    var parts := Paths.SplitExt(b);
    assert b[..|parts.0|] == parts.0;
    assert b[|parts.0|..] == parts.1;
    parts.0
  }

  /** `re.sub(r'[<>:"/\\|?*]', '_', s)`. */
  function ReplaceForbidden(s: string): (r: string)
    ensures |r| == |s|
    ensures NoForbidden(r)
    ensures forall k :: 0 <= k < |s| && !IsForbidden(s[k]) ==> r[k] == s[k]
    ensures forall k :: 0 <= k < |s| && IsForbidden(s[k]) ==> r[k] == '_'
  {
    if |s| == 0 then []
    else [if IsForbidden(s[0]) then '_' else s[0]] + ReplaceForbidden(s[1..])
  }

  /** Replacing keeps every plain character, in order: only forbidden ones become `_`. */
  lemma {:induction false} ReplaceKeepsPlain(s: string)
    ensures Select(IsPlain, ReplaceForbidden(s)) == Select(IsPlain, s)
  {
    if |s| > 0 {
      ReplaceKeepsPlain(s[1..]);
      assert ReplaceForbidden(s)[1..] == ReplaceForbidden(s[1..]);
    }
  }

  /** `re.sub(r'_+', '_', s)`: every run of underscores becomes a single one. */
  function Squeeze(s: string): (r: string)
    ensures |r| <= |s| && (|s| > 0 <==> |r| > 0)
    ensures NoDoubleUnderscore(r)
    ensures |s| > 0 ==> r[0] == s[0] && r[|r| - 1] == s[|s| - 1]
    ensures forall k :: 0 <= k < |r| ==> r[k] in s
    ensures Select(NotUnderscore, r) == Select(NotUnderscore, s)
  {
    if |s| <= 1 then
      SqueezeShort(s);
      s
    else if s[0] == '_' && s[1] == '_' then
      var rest := Squeeze(s[1..]);
      SqueezeDropStep(s, rest);
      rest
    else
      var rest := Squeeze(s[1..]);
      SqueezeKeepStep(s, rest);
      [s[0]] + rest
  }

  /** What `Squeeze` promises about its result `r` for `s`. */
  ghost predicate SqueezedFrom(s: string, r: string) {
    |r| <= |s| && (|s| > 0 <==> |r| > 0)
    && NoDoubleUnderscore(r)
    && (|s| > 0 ==> r[0] == s[0] && r[|r| - 1] == s[|s| - 1])
    && (forall k :: 0 <= k < |r| ==> r[k] in s)
    && Select(NotUnderscore, r) == Select(NotUnderscore, s)
  }

  /** A string of at most one character is already squeezed. */
  lemma SqueezeShort(s: string)
    requires |s| <= 1
    ensures SqueezedFrom(s, s)
  {
  }

  /** A leading `_` before another `_` is dropped: the squeezed tail serves for all of `s`. */
  lemma SqueezeDropStep(s: string, rest: string)
    requires |s| >= 2 && s[0] == '_' && s[1] == '_'
    requires SqueezedFrom(s[1..], rest)
    ensures SqueezedFrom(s, rest)
  {
    assert forall k :: 0 <= k < |rest| ==> rest[k] in s by {
      forall k | 0 <= k < |rest| ensures rest[k] in s {
        assert rest[k] in s[1..];
      }
    }
  }

  /** Any other first character is kept in front of the squeezed tail. */
  lemma SqueezeKeepStep(s: string, rest: string)
    requires |s| >= 2 && !(s[0] == '_' && s[1] == '_')
    requires SqueezedFrom(s[1..], rest)
    ensures SqueezedFrom(s, [s[0]] + rest)
  {
    var r := [s[0]] + rest;
    assert r[1..] == rest;
    assert forall k :: 0 <= k < |rest| ==> rest[k] in s by {
      forall k | 0 <= k < |rest| ensures rest[k] in s {
        assert rest[k] in s[1..];
      }
    }
    assert forall k :: 1 <= k < |r| ==> r[k] == rest[k - 1];
  }

  /** Squeezing leaves a string without `__` unchanged. */
  lemma SqueezeNoDouble(s: string)
    requires NoDoubleUnderscore(s)
    ensures Squeeze(s) == s
  {
    SqueezeDropsRepeated(s);
    DropRepeatedNoDouble(s);
  }

  /** Position `k` of `s` holds an underscore right after another underscore. */
  predicate RepeatedUnderscore(s: string, k: int)
    requires 0 <= k < |s|
  {
    0 < k && s[k] == '_' && s[k - 1] == '_'
  }

  /**
    Squeezing described position by position: `s` with every underscore that directly
    follows another underscore left out.
   */
  function DropRepeated(s: string): string {
    if |s| == 0 then []
    else DropRepeated(s[..|s| - 1]) + (if RepeatedUnderscore(s, |s| - 1) then [] else [s[|s| - 1]])
  }

  /** `Squeeze` agrees with the position-by-position description on every input. */
  lemma {:induction false} SqueezeDropsRepeated(s: string)
    ensures Squeeze(s) == DropRepeated(s)
  {
    if |s| > 0 {
      var tail := s[1..];
      assert s == [s[0]] + tail;
      DropRepeatedCons(s[0], tail);
      if |s| > 1 {
        SqueezeDropsRepeated(tail);
      } else {
        assert DropRepeated(tail) == [];
      }
    }
  }

  /** Dropping repeats, seen from the back: one more character is kept unless it repeats an `_`. */
  lemma DropRepeatedSnoc(init: string, c: char)
    ensures DropRepeated(init + [c])
            == if |init| > 0 && init[|init| - 1] == '_' && c == '_' then DropRepeated(init) else DropRepeated(init) + [c]
  {
    var s := init + [c];
    assert s[..|s| - 1] == init && s[|s| - 1] == c;
  }

  /** Dropping repeats, seen from the front: an `_` before another `_` is the one that goes. */
  lemma DropRepeatedCons(a: char, t: string)
    ensures DropRepeated([a] + t)
            == if |t| > 0 && a == '_' && t[0] == '_' then DropRepeated(t) else [a] + DropRepeated(t)
  {
    if |t| > 0 && a == '_' && t[0] == '_' {
      DropRepeatedDoubled(t);
    } else {
      DropRepeatedConcat([a], t);
      DropRepeatedSnoc([], a);
      assert [] + [a] == [a];
    }
  }

  /** An `_` put in front of a string that starts with `_` is dropped. */
  lemma {:induction false} DropRepeatedDoubled(t: string)
    requires |t| > 0 && t[0] == '_'
    ensures DropRepeated(['_'] + t) == DropRepeated(t)
  {
    var init := t[..|t| - 1];
    var c := t[|t| - 1];
    assert t == init + [c];
    assert ['_'] + t == (['_'] + init) + [c];
    DropRepeatedSnoc(init, c);
    if |init| == 0 {
      assert ['_'] + init == [] + ['_'];
      DropRepeatedSnoc([], '_');
      DropRepeatedSnoc(['_'], '_');
    } else {
      DropRepeatedSnocAfter(['_'], init, c);
      DropRepeatedDoubled(init);
    }
  }

  /** Dropping repeats splits at a boundary that is not between two underscores. */
  lemma {:induction false} DropRepeatedConcat(x: string, y: string)
    requires |x| == 0 || |y| == 0 || x[|x| - 1] != '_' || y[0] != '_'
    ensures DropRepeated(x + y) == DropRepeated(x) + DropRepeated(y)
  {
    if |y| == 0 {
      assert x + y == x;
    } else {
      var init := y[..|y| - 1];
      var c := y[|y| - 1];
      assert x + y == (x + init) + [c];
      assert y == init + [c];
      DropRepeatedSnocAfter(x, init, c);
      DropRepeatedConcat(x, init);
      DropRepeatedSnoc(init, c);
    }
  }

  /** Whether the last of `x + init + [c]` is dropped depends on `init` alone. */
  lemma DropRepeatedSnocAfter(x: string, init: string, c: char)
    requires |x| == 0 || |init| > 0 || x[|x| - 1] != '_' || c != '_'
    ensures DropRepeated((x + init) + [c])
            == DropRepeated(x + init) + (if |init| > 0 && init[|init| - 1] == '_' && c == '_' then [] else [c])
  {
    DropRepeatedSnoc(x + init, c);
    if |init| > 0 {
      assert (x + init)[|x + init| - 1] == init[|init| - 1];
    } else {
      assert x + init == x;
    }
  }

  /** Without `__` there is nothing to drop. */
  lemma {:induction false} DropRepeatedNoDouble(s: string)
    requires NoDoubleUnderscore(s)
    ensures DropRepeated(s) == s
  {
    if |s| > 0 {
      var init := s[..|s| - 1];
      assert NoDoubleUnderscore(init) by {
        forall i, j | 0 <= i < j < |init| && j == i + 1 ensures !(init[i] == '_' && init[j] == '_') {
          assert init[i] == s[i] && init[j] == s[j];
        }
      }
      DropRepeatedNoDouble(init);
      assert !RepeatedUnderscore(s, |s| - 1);
      assert s == init + [s[|s| - 1]];
    }
  }

  /** A non-empty run of underscores squeezes to one underscore. */
  lemma {:induction false} SqueezeUnderscores(u: string)
    requires |u| > 0 && forall k :: 0 <= k < |u| ==> u[k] == '_'
    ensures Squeeze(u) == "_"
  {
    if |u| > 1 {
      SqueezeUnderscores(u[1..]);
    }
  }

  /** `s.lstrip('_ ')`. */
  function StripStart(s: string): (r: string)
    ensures |r| <= |s| && r == s[|s| - |r|..]
    ensures |r| > 0 ==> !IsEdge(r[0])
    ensures forall k :: 0 <= k < |s| - |r| ==> IsEdge(s[k])
    ensures Select(NotEdge, r) == Select(NotEdge, s)
  {
    if |s| > 0 && IsEdge(s[0]) then StripStart(s[1..]) else s
  }

  /** `s.rstrip('_ ')`. */
  function StripEnd(s: string): (r: string)
    ensures |r| <= |s| && r == s[..|r|]
    ensures |r| > 0 ==> !IsEdge(r[|r| - 1])
    ensures forall k :: |r| <= k < |s| ==> IsEdge(s[k])
    ensures Select(NotEdge, r) == Select(NotEdge, s)
  {
    if |s| > 0 && IsEdge(s[|s| - 1]) then
      var init := s[..|s| - 1];
      assert s == init + [s[|s| - 1]];
      SelectConcat(NotEdge, init, [s[|s| - 1]]);
      StripEnd(init)
    else s
  }

  /**
    `r` is the piece of `s` starting at `i`, and everything of `s` before and after that
    piece is `_` or space.
   */
  predicate TrimmedAt(s: string, r: string, i: int) {
    0 <= i && i + |r| <= |s| && r == s[i..i + |r|]
    && (forall k :: 0 <= k < i ==> IsEdge(s[k]))
    && (forall k :: i + |r| <= k < |s| ==> IsEdge(s[k]))
  }

  /** `s.strip('_ ')`: the part of `s` between its leading and trailing `_`/space runs. */
  function Strip(s: string): (r: string)
    ensures exists i :: TrimmedAt(s, r, i)
    ensures |r| > 0 ==> !IsEdge(r[0]) && !IsEdge(r[|r| - 1])
    ensures forall k :: 0 <= k < |r| ==> r[k] in s
    ensures NoDoubleUnderscore(s) ==> NoDoubleUnderscore(r)
    ensures Select(NotEdge, r) == Select(NotEdge, s)
  {
    var left := StripStart(s);
    var r := StripEnd(left);
    assert |r| > 0 ==> r[0] == left[0];
    StripIsInfix(s, left, r);
    r
  }

  lemma StripIsInfix(s: string, left: string, r: string)
    requires |left| <= |s| && left == s[|s| - |left|..]
    requires forall k :: 0 <= k < |s| - |left| ==> IsEdge(s[k])
    requires |r| <= |left| && r == left[..|r|]
    requires forall k :: |r| <= k < |left| ==> IsEdge(left[k])
    ensures TrimmedAt(s, r, |s| - |left|)
    ensures forall k :: 0 <= k < |r| ==> r[k] in s
    ensures NoDoubleUnderscore(s) ==> NoDoubleUnderscore(r)
  {
    var off := |s| - |left|;
    assert forall k :: 0 <= k < |r| ==> r[k] == s[off + k];
    assert forall k :: off + |r| <= k < |s| ==> s[k] == left[k - off];
    InfixFacts(s, r, off);
  }

  /** Only `Strip`'s result is a piece of `s` surrounded by `_`/space runs that does not itself start or end with one. */
  lemma StripUnique(s: string, r: string, i: int)
    requires TrimmedAt(s, r, i)
    requires |r| > 0 ==> !IsEdge(r[0]) && !IsEdge(r[|r| - 1])
    ensures Strip(s) == r
  {
    var t := Strip(s);
    var j :| TrimmedAt(s, t, j);
    TrimmedUnique(s, r, i, t, j);
  }

  /** Two trimmed pieces of `s` that neither start nor end with `_`/space are the same. */
  lemma TrimmedUnique(s: string, r: string, i: int, t: string, j: int)
    requires TrimmedAt(s, r, i) && (|r| > 0 ==> !IsEdge(r[0]) && !IsEdge(r[|r| - 1]))
    requires TrimmedAt(s, t, j) && (|t| > 0 ==> !IsEdge(t[0]) && !IsEdge(t[|t| - 1]))
    ensures r == t
  {
    if |r| > 0 && |t| > 0 {
      assert s[i] == r[0] && s[j] == t[0];
      assert i == j;
      assert s[i + |r| - 1] == r[|r| - 1] && s[j + |t| - 1] == t[|t| - 1];
      assert |r| == |t|;
    }
  }


  /** A contiguous piece of `s` holds only characters of `s` and keeps its `__`-freedom. */
  lemma InfixFacts(s: string, r: string, off: nat)
    requires off + |r| <= |s|
    requires forall k :: 0 <= k < |r| ==> r[k] == s[off + k]
    ensures forall k :: 0 <= k < |r| ==> r[k] in s
    ensures NoDoubleUnderscore(s) ==> NoDoubleUnderscore(r)
  {
    if NoDoubleUnderscore(s) {
      forall i, j | 0 <= i < j < |r| && j == i + 1 ensures !(r[i] == '_' && r[j] == '_') {
        assert r[i] == s[off + i] && r[j] == s[off + j];
      }
    }
  }

  /** Steps three to five before the fallback: may be empty. */
  function Tidy(stem: string): (t: string)
    ensures NoForbidden(t)
    ensures NoDoubleUnderscore(t)
    ensures |t| > 0 ==> !IsEdge(t[0]) && !IsEdge(t[|t| - 1])
    ensures Select(IsPlain, t) == Select(IsPlain, stem)
    ensures t == [] <==> Select(IsPlain, stem) == []
  {
    var t := Strip(Squeeze(ReplaceForbidden(stem)));
    TidyKeepsPlain(stem);
    TidyEmpty(t);
    t
  }

  lemma TidyKeepsPlain(stem: string)
    ensures Select(IsPlain, Strip(Squeeze(ReplaceForbidden(stem)))) == Select(IsPlain, stem)
  {
    var replaced := ReplaceForbidden(stem);
    var squeezed := Squeeze(replaced);
    var t := Strip(squeezed);
    ReplaceKeepsPlain(stem);
    PlainNarrowerThanNotUnderscore();
    PlainNarrowerThanNotEdge();
    SelectNarrower(IsPlain, NotUnderscore, squeezed);
    SelectNarrower(IsPlain, NotUnderscore, replaced);
    SelectNarrower(IsPlain, NotEdge, t);
    SelectNarrower(IsPlain, NotEdge, squeezed);
  }

  lemma PlainNarrowerThanNotUnderscore()
    ensures forall c :: IsPlain(c) ==> NotUnderscore(c)
  {
  }

  lemma PlainNarrowerThanNotEdge()
    ensures forall c :: IsPlain(c) ==> NotEdge(c)
  {
  }

  /** A stripped string without forbidden characters is empty iff it holds no plain character. */
  lemma TidyEmpty(t: string)
    requires NoForbidden(t)
    requires |t| > 0 ==> !IsEdge(t[0])
    ensures t == [] <==> Select(IsPlain, t) == []
  {
    if |t| > 0 {
      assert IsPlain(t[0]);
      assert Select(IsPlain, t) == [t[0]] + Select(IsPlain, t[1..]);
    }
  }

  /** What `Clean` promises about its result `r` for `stem`. */
  ghost predicate CleanedFrom(stem: string, r: string) {
    (Select(IsPlain, stem) == [] ==> r == UntitledVideoFile)
    && (Select(IsPlain, stem) != [] ==> Select(IsPlain, r) == Select(IsPlain, stem))
    && |r| > 0
    && NoForbidden(r)
    && NoDoubleUnderscore(r)
    && !IsEdge(r[0]) && !IsEdge(r[|r| - 1])
  }

  /** The fallback name is clean and stands for a stem with nothing plain in it. */
  lemma FallbackIsClean(stem: string)
    requires Tidy(stem) == []
    ensures CleanedFrom(stem, UntitledVideoFile)
  {
    assert Select(IsPlain, stem) == [];
    FallbackShape();
  }

  lemma FallbackShape()
    ensures NoForbidden(UntitledVideoFile) && NoDoubleUnderscore(UntitledVideoFile)
    ensures !IsEdge(UntitledVideoFile[0]) && !IsEdge(UntitledVideoFile[|UntitledVideoFile| - 1])
  {
    var f := UntitledVideoFile;
    forall k | 0 <= k < |f| ensures !IsForbidden(f[k]) {
    }
  }

  /** A non-empty tidied stem is already clean. */
  lemma TidyIsClean(stem: string)
    requires Tidy(stem) != []
    ensures CleanedFrom(stem, Tidy(stem))
  {
  }

  /** The sanitizer applied to a name that is not `None`, from its stem on. */
  function Clean(stem: string): (r: string)
    ensures Select(IsPlain, stem) == [] ==> r == UntitledVideoFile
    ensures Select(IsPlain, stem) != [] ==> Select(IsPlain, r) == Select(IsPlain, stem)
    ensures |r| > 0
    ensures NoForbidden(r)
    ensures NoDoubleUnderscore(r)
    ensures !IsEdge(r[0]) && !IsEdge(r[|r| - 1])
  {
    var t := Tidy(stem);
    if t == [] then FallbackIsClean(stem); UntitledVideoFile else TidyIsClean(stem); t
  }

  /** The first step: `None` becomes `untitled`, any string is kept. */
  function NameOrUntitled(name: Option<string>): string {
    match name
    case Some(v) => v
    case None => Untitled
  }

  /** `sanitize_filename(name)`. */
  function Sanitize(name: Option<string>): (r: string)
    ensures |r| > 0
    ensures NoForbidden(r)
    ensures NoDoubleUnderscore(r)
    ensures !IsEdge(r[0]) && !IsEdge(r[|r| - 1])
    ensures Paths.Sep !in r
  {
    var r := Clean(Stem(NameOrUntitled(name)));
    NoForbiddenNoSep(r);
    r
  }

  /** `/` is one of the forbidden characters. */
  lemma NoForbiddenNoSep(s: string)
    requires NoForbidden(s)
    ensures Paths.Sep !in s
  {
    forall k | 0 <= k < |s| ensures s[k] != Paths.Sep {
      assert !IsForbidden(s[k]);
    }
  }

  // ---------------------------------------------------------------------------
  // Properties
  // ---------------------------------------------------------------------------

  /**
    Every ASCII letter and digit of the stem survives, in order and number; a stem with
    one of them never reaches the fallback.
   */
  lemma SanitizeKeepsAlnum(n: string)
    requires Select(IsAsciiAlnum, Stem(n)) != []
    ensures Sanitize(Some(n)) == Tidy(Stem(n))
    ensures Select(IsAsciiAlnum, Sanitize(Some(n))) == Select(IsAsciiAlnum, Stem(n))
  {
    var stem := Stem(n);
    AlnumIsPlain();
    SelectNarrower(IsAsciiAlnum, IsPlain, stem);
    assert Select(IsPlain, stem) != [];
    var t := Tidy(stem);
    assert Sanitize(Some(n)) == t;
    SelectNarrower(IsAsciiAlnum, IsPlain, t);
  }

  lemma AlnumIsPlain()
    ensures forall c :: IsAsciiAlnum(c) ==> IsPlain(c)
  {
  }

  /** Only the last path component matters. */
  lemma SanitizeBasename(n: string)
    ensures Sanitize(Some(n)) == Sanitize(Some(Paths.Basename(n)))
  {
    Paths.BasenameIdempotent(n);
  }

  lemma StemBasename(n: string)
    ensures Stem(n) == Stem(Paths.Basename(n))
  {
    Paths.BasenameIdempotent(n);
  }

  /** The folder a name is joined onto does not matter. */
  lemma SanitizeJoin(dir: string, name: string)
    requires Paths.Sep !in name
    ensures Sanitize(Some(Paths.Join(dir, name))) == Sanitize(Some(name))
  {
    Paths.BasenameOfJoin(dir, name);
    SanitizeBasename(Paths.Join(dir, name));
  }

  /** Which extension a name carries does not matter. */
  lemma SanitizeIgnoresExtension(root: string, ext1: string, ext2: string)
    requires Paths.Sep !in root && !Paths.AllDots(root)
    requires Paths.Sep !in ext1 && |ext1| > 0 && ext1[0] == Paths.ExtSep && Paths.ExtSep !in ext1[1..]
    requires Paths.Sep !in ext2 && |ext2| > 0 && ext2[0] == Paths.ExtSep && Paths.ExtSep !in ext2[1..]
    ensures Sanitize(Some(root + ext1)) == Sanitize(Some(root + ext2)) == Clean(root)
  {
    StemOfSplit(root + ext1, root, ext1);
    StemOfSplit(root + ext2, root, ext2);
  }

  /** The stem of a separator-free `root + ext` with a one-dot `ext` is `root`. */
  lemma StemOfSplit(n: string, root: string, ext: string)
    requires n == root + ext
    requires Paths.Sep !in root && !Paths.AllDots(root)
    requires Paths.Sep !in ext && |ext| > 0 && ext[0] == Paths.ExtSep && Paths.ExtSep !in ext[1..]
    ensures Stem(n) == root
  {
    assert Paths.Sep !in n;
    Paths.BasenameOfTail(n, [], n);
    Paths.SplitExtOf(root, ext);
  }

  /** A name that is already clean passes steps three to five unchanged. */
  lemma CleanFixedPoint(s: string)
    requires |s| > 0 && NoForbidden(s) && NoDoubleUnderscore(s)
    requires !IsEdge(s[0]) && !IsEdge(s[|s| - 1])
    ensures Clean(s) == s
  {
    assert ReplaceForbidden(s) == s;
    SqueezeNoDouble(s);
    assert StripStart(s) == s;
    assert StripEnd(s) == s;
  }

  /**
    Two words of plain characters separated by any non-empty run of forbidden characters
    and underscores come out joined by exactly one underscore.
   */
  lemma TidyJoinsWords(u: string, sep: string, v: string)
    requires |u| > 0 && forall k :: 0 <= k < |u| ==> IsPlain(u[k])
    requires |v| > 0 && forall k :: 0 <= k < |v| ==> IsPlain(v[k])
    requires |sep| > 0 && forall k :: 0 <= k < |sep| ==> IsForbidden(sep[k]) || sep[k] == '_'
    ensures Tidy(u + sep + v) == u + "_" + v
    ensures Clean(u + sep + v) == u + "_" + v
  {
    var bar := ReplaceForbidden(sep);
    ReplaceBetween(u, sep, v);
    SqueezeAround(u, bar, v);
    var w := u + "_" + v;
    assert w[0] == u[0] && w[|w| - 1] == v[|v| - 1];
    assert w[0..|w|] == w;
    StripUnique(w, w, 0);
  }

  /** Replacing leaves plain words alone around a replaced middle. */
  lemma ReplaceBetween(u: string, sep: string, v: string)
    requires forall k :: 0 <= k < |u| ==> IsPlain(u[k])
    requires forall k :: 0 <= k < |v| ==> IsPlain(v[k])
    ensures ReplaceForbidden(u + sep + v) == u + ReplaceForbidden(sep) + v
  {
    ReplaceConcat(u + sep, v);
    ReplaceConcat(u, sep);
    ReplacePlain(u);
    ReplacePlain(v);
  }

  /** Replacing works character by character, so it splits at any boundary. */
  lemma ReplaceConcat(x: string, y: string)
    ensures ReplaceForbidden(x + y) == ReplaceForbidden(x) + ReplaceForbidden(y)
  {
    var r := ReplaceForbidden(x + y);
    var t := ReplaceForbidden(x) + ReplaceForbidden(y);
    forall k | 0 <= k < |r| ensures r[k] == t[k] {
      if k < |x| {
        assert (x + y)[k] == x[k];
      } else {
        assert (x + y)[k] == y[k - |x|];
      }
    }
  }

  /** A string without forbidden characters is left as it is. */
  lemma ReplacePlain(u: string)
    requires NoForbidden(u)
    ensures ReplaceForbidden(u) == u
  {
  }

  /** Squeezing two plain words around a run of underscores keeps one underscore. */
  lemma SqueezeAround(u: string, bar: string, v: string)
    requires |u| > 0 && forall k :: 0 <= k < |u| ==> IsPlain(u[k])
    requires |v| > 0 && forall k :: 0 <= k < |v| ==> IsPlain(v[k])
    requires |bar| > 0 && forall k :: 0 <= k < |bar| ==> bar[k] == '_'
    ensures Squeeze(u + bar + v) == u + "_" + v
  {
    SqueezeUnderscores(bar);
    SqueezeNoDouble(u);
    SqueezeNoDouble(v);
    SqueezeDropsRepeated(u);
    SqueezeDropsRepeated(v);
    SqueezeDropsRepeated(bar);
    SqueezeDropsRepeated(u + bar + v);
    DropRepeatedConcat(u, bar);
    assert (u + bar)[|u + bar| - 1] == '_' && v[0] != '_';
    DropRepeatedConcat(u + bar, v);
  }

  /** Every character of `s` is forbidden, `_` or space: a run that tidying removes. */
  predicate IsJunk(s: string) {
    forall k :: 0 <= k < |s| ==> IsForbidden(s[k]) || IsEdge(s[k])
  }

  /** A word of plain characters wrapped in forbidden characters, `_` and spaces comes out bare. */
  lemma TidyTrimsEnds(front: string, u: string, back: string)
    requires IsJunk(front) && IsJunk(back)
    requires |u| > 0 && forall k :: 0 <= k < |u| ==> IsPlain(u[k])
    ensures Tidy(front + u + back) == u
    ensures Clean(front + u + back) == u
  {
    var a := ReplaceForbidden(front);
    var b := ReplaceForbidden(back);
    ReplaceAround(front, u, back, a, b);
    SqueezeAroundWord(a, u, b);
    SqueezeKeepsEdge(a);
    SqueezeKeepsEdge(b);
    StripAroundWord(Squeeze(a), u, Squeeze(b));
  }

  /** Squeezing a run of `_` and spaces leaves only `_` and spaces. */
  lemma SqueezeKeepsEdge(a: string)
    requires forall k :: 0 <= k < |a| ==> IsEdge(a[k])
    ensures forall k :: 0 <= k < |Squeeze(a)| ==> IsEdge(Squeeze(a)[k])
  {
    var r := Squeeze(a);
    forall k | 0 <= k < |r| ensures IsEdge(r[k]) {
      var i :| 0 <= i < |a| && a[i] == r[k];
    }
  }

  /** Stripping a plain word wrapped in `_` and spaces gives the word. */
  lemma StripAroundWord(a: string, u: string, b: string)
    requires forall k :: 0 <= k < |a| ==> IsEdge(a[k])
    requires forall k :: 0 <= k < |b| ==> IsEdge(b[k])
    requires |u| > 0 && forall k :: 0 <= k < |u| ==> IsPlain(u[k])
    ensures Strip(a + u + b) == u
  {
    var w := a + u + b;
    assert w[|a|..|a| + |u|] == u;
    assert forall k :: 0 <= k < |a| ==> w[k] == a[k];
    assert forall k :: |a| + |u| <= k < |w| ==> w[k] == b[k - |a| - |u|];
    StripUnique(w, u, |a|);
  }

  /** Replacing a junk run gives underscores and spaces only; a plain middle is left alone. */
  lemma ReplaceAround(front: string, u: string, back: string, a: string, b: string)
    requires IsJunk(front) && IsJunk(back)
    requires forall k :: 0 <= k < |u| ==> IsPlain(u[k])
    requires a == ReplaceForbidden(front) && b == ReplaceForbidden(back)
    ensures ReplaceForbidden(front + u + back) == a + u + b
    ensures forall k :: 0 <= k < |a| ==> IsEdge(a[k])
    ensures forall k :: 0 <= k < |b| ==> IsEdge(b[k])
  {
    ReplaceConcat(front + u, back);
    ReplaceConcat(front, u);
    ReplacePlain(u);
  }

  /** Squeezing runs on either side of a plain word leaves the word in place. */
  lemma SqueezeAroundWord(a: string, u: string, b: string)
    requires |u| > 0 && forall k :: 0 <= k < |u| ==> IsPlain(u[k])
    ensures Squeeze(a + u + b) == Squeeze(a) + u + Squeeze(b)
  {
    SqueezeNoDouble(u);
    SqueezeDropsRepeated(a);
    SqueezeDropsRepeated(u);
    SqueezeDropsRepeated(b);
    SqueezeDropsRepeated(a + u + b);
    assert u[0] != '_';
    DropRepeatedConcat(a, u);
    assert (a + u)[|a + u| - 1] == u[|u| - 1];
    DropRepeatedConcat(a + u, b);
  }

  /** Steps three to five are idempotent: cleaning a cleaned stem changes nothing. */
  lemma CleanIdempotent(stem: string)
    ensures Clean(Clean(stem)) == Clean(stem)
  {
    CleanFixedPoint(Clean(stem));
  }

  /** A name without separator and without dot is its own stem. */
  lemma StemOfPlainName(n: string)
    requires Paths.Sep !in n && Paths.ExtSep !in n
    ensures Stem(n) == n
  {
    Paths.BasenameOfTail(n, [], n);
    assert n[..|n|] == n;
  }

  /**
    Sanitizing a sanitized name changes nothing as long as it has no dot; with a dot the
    result is treated as having an extension again, so the sanitizer is not idempotent.
   */
  lemma SanitizeIdempotentWithoutDot(name: Option<string>)
    requires Paths.ExtSep !in Sanitize(name)
    ensures Sanitize(Some(Sanitize(name))) == Sanitize(name)
  {
    var r := Sanitize(name);
    StemOfPlainName(r);
    CleanFixedPoint(r);
  }

  // ---------------------------------------------------------------------------
  // Worked examples
  // ---------------------------------------------------------------------------

  /** A stem made only of forbidden characters, `_` and spaces has nothing plain in it. */
  lemma {:induction false} JunkHasNoPlain(s: string)
    requires IsJunk(s)
    ensures Select(IsPlain, s) == []
  {
    if |s| > 0 {
      assert IsJunk(s[1..]) by {
        forall k | 0 <= k < |s| - 1 ensures IsForbidden(s[1..][k]) || IsEdge(s[1..][k]) {
          assert s[1..][k] == s[k + 1];
        }
      }
      JunkHasNoPlain(s[1..]);
    }
  }

  /**
    A path made of a folder part, a separator-free root that is not all dots, and a one-dot
    extension sanitizes to the cleaned root.
   */
  lemma SanitizeOf(n: string, dir: string, root: string, ext: string)
    requires n == dir + (root + ext)
    requires |dir| == 0 || dir[|dir| - 1] == Paths.Sep
    requires Paths.Sep !in root && !Paths.AllDots(root)
    requires Paths.Sep !in ext && |ext| > 0 && ext[0] == Paths.ExtSep && Paths.ExtSep !in ext[1..]
    ensures Sanitize(Some(n)) == Clean(root)
  {
    assert Paths.Sep !in root + ext;
    Paths.BasenameOfTail(n, dir, root + ext);
    StemOfSplit(root + ext, root, ext);
    StemBasename(n);
  }

  /** `None` gives `untitled`. */
  lemma SanitizeNone()
    ensures Sanitize(None) == Untitled
  {
    StemOfUntitled();
    CleanOfUntitled();
    SanitizeByStem(Untitled, Untitled);
  }

  lemma StemOfUntitled() ensures Stem(Untitled) == Untitled { StemOfPlainName(Untitled); }
  lemma CleanOfUntitled() ensures Clean(Untitled) == Untitled { CleanFixedPoint(Untitled); }

  /** The two fallbacks differ: `None` is not treated like the empty name. */
  lemma FallbacksDiffer()
    ensures Sanitize(None) != Sanitize(Some(""))
  {
    SanitizeNone();
    SanitizeEmptyStems();
  }

  /** Names whose stem has nothing plain left fall back to `untitled_video_file`. */
  lemma SanitizeEmptyStems()
    ensures Sanitize(Some("")) == UntitledVideoFile
    ensures Sanitize(Some("___")) == UntitledVideoFile
    ensures Sanitize(Some("?*.mp4")) == UntitledVideoFile
  {
    StemOfEmpty();
    CleanOfEmpty();
    SanitizeByStem("", "");
    StemOfUnderscores();
    CleanOfUnderscores();
    SanitizeByStem("___", "___");
    StemOfForbiddenOnly();
    CleanOfForbiddenOnly();
    SanitizeByStem("?*.mp4", "?*");
  }

  /** Sanitizing a name is cleaning its stem. */
  lemma SanitizeByStem(n: string, stem: string)
    requires Stem(n) == stem
    ensures Sanitize(Some(n)) == Clean(stem)
  {
  }

  lemma StemOfEmpty() ensures Stem("") == "" { StemOfPlainName(""); }
  lemma CleanOfEmpty() ensures Clean("") == UntitledVideoFile { JunkHasNoPlain(""); }
  lemma StemOfUnderscores() ensures Stem("___") == "___" { StemOfPlainName("___"); }
  lemma CleanOfUnderscores() ensures Clean("___") == UntitledVideoFile { JunkHasNoPlain("___"); }
  lemma CleanOfForbiddenOnly() ensures Clean("?*") == UntitledVideoFile { JunkHasNoPlain("?*"); }

  lemma StemOfForbiddenOnly()
    ensures Stem("?*.mp4") == "?*"
  {
    assert "?*"[0] != Paths.ExtSep;
    StemOfSplit("?*.mp4", "?*", ".mp4");
  }

  /** Only the last component's stem counts: directories and extensions vanish. */
  lemma SanitizePathExamples()
    ensures Sanitize(Some("My:Video/Clip*.mp4")) == "Clip"
    ensures Sanitize(Some("dir/My:Video.mp4")) == "My_Video"
  {
    SanitizeClipPath();
    CleanOfClip();
    SanitizeDirPath();
    CleanOfMyVideo();
  }

  lemma SanitizeClipPath()
    ensures Sanitize(Some("My:Video/Clip*.mp4")) == Clean("Clip*")
  {
    assert "Clip*"[0] != Paths.ExtSep;
    SanitizeOf("My:Video/Clip*.mp4", "My:Video/", "Clip*", ".mp4");
  }

  lemma SanitizeDirPath()
    ensures Sanitize(Some("dir/My:Video.mp4")) == Clean("My:Video")
  {
    assert "My:Video"[0] != Paths.ExtSep;
    SanitizeOf("dir/My:Video.mp4", "dir/", "My:Video", ".mp4");
  }

  lemma CleanOfClip()
    ensures Clean("Clip*") == "Clip"
  {
    assert "Clip*" == "" + "Clip" + "*";
    TidyTrimsEnds("", "Clip", "*");
  }

  lemma CleanOfMyVideo()
    ensures Clean("My:Video") == "My_Video"
  {
    MyVideoParts();
    TidyJoinsWords("My", ":", "Video");
  }

  lemma MyVideoParts()
    ensures "My:Video" == "My" + ":" + "Video" && "My_Video" == "My" + "_" + "Video"
    ensures forall k :: 0 <= k < |"My"| ==> IsPlain("My"[k])
    ensures forall k :: 0 <= k < |"Video"| ==> IsPlain("Video"[k])
    ensures IsForbidden(":"[0])
  {
  }

  /** Sanitizing twice strips a second extension: `a.b.c` gives `a.b`, which gives `a`. */
  lemma SanitizeNotIdempotent()
    ensures Sanitize(Some("a.b.c")) == "a.b"
    ensures Sanitize(Some(Sanitize(Some("a.b.c")))) == "a"
  {
    StemOfABC();
    CleanOfAB();
    SanitizeByStem("a.b.c", "a.b");
    StemOfAB();
    CleanOfA();
    SanitizeByStem("a.b", "a");
  }

  lemma StemOfABC()
    ensures Stem("a.b.c") == "a.b"
  {
    assert "a.b"[0] != Paths.ExtSep;
    StemOfSplit("a.b.c", "a.b", ".c");
  }

  lemma StemOfAB()
    ensures Stem("a.b") == "a"
  {
    assert "a"[0] != Paths.ExtSep;
    StemOfSplit("a.b", "a", ".b");
  }

  lemma CleanOfAB() ensures Clean("a.b") == "a.b" { CleanFixedPoint("a.b"); }
  lemma CleanOfA() ensures Clean("a") == "a" { CleanFixedPoint("a"); }
}

=== FILE: paths.dfy ===
/**
  The three POSIX path operations the transcriber relies on, with the semantics of
  Python's `posixpath`: only `/` separates path components, and an extension is the
  text from the last `.` of the last component, unless that component is made only of
  dots up to that `.` (a "hidden" name such as `.mp4` or `..x` has no extension).
 */
module Paths {

  const Sep: char := '/'
  const ExtSep: char := '.'

  /** Index of the last occurrence of `c` in `s`, or -1 when there is none (`str.rfind`). */
  function RFind(s: string, c: char): (i: int)
    ensures -1 <= i < |s|
    ensures 0 <= i ==> s[i] == c
    ensures forall j :: i < j < |s| ==> s[j] != c
  {
    if |s| == 0 then -1
    else if s[|s| - 1] == c then |s| - 1
    else RFind(s[..|s| - 1], c)
  }

  /** `RFind` is pinned down by its contract: the last position holding `c`. */
  lemma RFindIsLast(s: string, c: char, i: int)
    requires -1 <= i < |s|
    requires 0 <= i ==> s[i] == c
    requires forall j :: i < j < |s| ==> s[j] != c
    ensures RFind(s, c) == i
  {
  }

  /** `os.path.basename`: the text after the last separator. */
  function Basename(p: string): (b: string)
    ensures Sep !in b
    ensures |b| <= |p| && b == p[|p| - |b|..]
    ensures |b| < |p| ==> p[|p| - |b| - 1] == Sep
  {
    var i := RFind(p, Sep) + 1;
    assert forall k :: 0 <= k < |p| - i ==> p[i..][k] == p[i + k];
    p[i..]
  }

  /** Any separator-free tail that follows a separator (or the start) is the basename. */
  lemma BasenameOfTail(p: string, dir: string, name: string)
    requires p == dir + name
    requires Sep !in name
    requires |dir| == 0 || dir[|dir| - 1] == Sep
    ensures Basename(p) == name
  {
    var i := |dir| - 1;
    assert forall j :: i < j < |p| ==> p[j] == name[j - |dir|];
    RFindIsLast(p, Sep, i);
    assert p[|dir|..] == name;
  }

  /** Taking the basename twice changes nothing. */
  lemma BasenameIdempotent(p: string)
    ensures Basename(Basename(p)) == Basename(p)
  {
    BasenameOfTail(Basename(p), [], Basename(p));
  }

  /** `os.path.join(dir, name)` for two components. */
  function Join(dir: string, name: string): (p: string)
    ensures |name| <= |p| && p[|p| - |name|..] == name
    ensures |name| > 0 && name[0] == Sep ==> p == name
    ensures !(|name| > 0 && name[0] == Sep) ==> |dir| <= |p| && p[..|dir|] == dir
    ensures !(|name| > 0 && name[0] == Sep) && (|dir| == 0 || dir[|dir| - 1] == Sep) ==> p == dir + name
    ensures !(|name| > 0 && name[0] == Sep) && !(|dir| == 0 || dir[|dir| - 1] == Sep) ==> p == dir + [Sep] + name
  {
    if |name| > 0 && name[0] == Sep then name
    else if |dir| == 0 || dir[|dir| - 1] == Sep then dir + name
    else dir + [Sep] + name
  }

  /** Joining a separator-free name onto any folder and taking the basename gives the name back. */
  lemma {:induction false} BasenameOfJoin(dir: string, name: string)
    requires Sep !in name
    ensures Basename(Join(dir, name)) == name
  {
    if |dir| == 0 || dir[|dir| - 1] == Sep {
      BasenameOfTail(dir + name, dir, name);
    } else {
      var d := dir + [Sep];
      assert dir + [Sep] + name == d + name;
      BasenameOfTail(d + name, d, name);
    }
  }

  /** A separator-free name joined onto a folder that does not end in `/` gets one `/` in between. */
  lemma JoinUnder(dir: string, name: string)
    requires |dir| > 0 && dir[|dir| - 1] != Sep
    requires Sep !in name
    ensures Join(dir, name) == dir + [Sep] + name
    ensures Basename(Join(dir, name)) == name
  {
    BasenameOfJoin(dir, name);
  }

  /** True when every character of `s` is an extension separator. */
  predicate AllDots(s: string) {
    forall k :: 0 <= k < |s| ==> s[k] == ExtSep
  }

  /** True when every character of `p` from index `i` up to (not including) `j` is a `.`. */
  predicate DotsBetween(p: string, i: int, j: int) {
    forall k :: i <= k < j && 0 <= k < |p| ==> p[k] == ExtSep
  }

  /**
    The last component of `p` has an extension: some `.` in it is preceded, within the
    component, by a character other than `.`.
   */
  predicate HasExtension(p: string) {
    var start := RFind(p, Sep) + 1;
    exists d :: start <= d < |p| && p[d] == ExtSep && !DotsBetween(p, start, d)
  }

  /**
    `os.path.splitext`: the root and the extension, where the extension is empty or runs
    from the last `.` of the last component to the end.
   */
  function SplitExt(p: string): (r: (string, string))
    ensures r.0 + r.1 == p
    ensures r.1 != [] ==> r.1[0] == ExtSep && ExtSep !in r.1[1..] && Sep !in r.1
    ensures r.1 != [] <==> HasExtension(p)
  {
    var sepIndex := RFind(p, Sep);
    var dotIndex := RFind(p, ExtSep);
    if sepIndex < dotIndex && !DotsBetween(p, sepIndex + 1, dotIndex) then
      var r := (p[..dotIndex], p[dotIndex..]);
      SplitAtLastDot(p, sepIndex, dotIndex, r);
      r
    else
      NoExtension(p, sepIndex, dotIndex);
      (p, [])
  }

  lemma SplitAtLastDot(p: string, sepIndex: int, dotIndex: int, r: (string, string))
    requires sepIndex == RFind(p, Sep) && dotIndex == RFind(p, ExtSep)
    requires sepIndex < dotIndex
    requires !DotsBetween(p, sepIndex + 1, dotIndex)
    requires r == (p[..dotIndex], p[dotIndex..])
    ensures r.0 + r.1 == p
    ensures r.1 != [] && r.1[0] == ExtSep && ExtSep !in r.1[1..] && Sep !in r.1
    ensures HasExtension(p)
  {
    assert p[dotIndex] == ExtSep;
    assert forall k :: 0 <= k < |r.1| ==> r.1[k] == p[dotIndex + k];
  }

  lemma NoExtension(p: string, sepIndex: int, dotIndex: int)
    requires sepIndex == RFind(p, Sep) && dotIndex == RFind(p, ExtSep)
    requires !(sepIndex < dotIndex && !DotsBetween(p, sepIndex + 1, dotIndex))
    ensures !HasExtension(p)
  {
    var start := sepIndex + 1;
    forall d | start <= d < |p| && p[d] == ExtSep
      ensures DotsBetween(p, start, d)
    {
      assert d <= dotIndex;
    }
  }

  /** A separator-free root with a non-dot character, followed by a one-dot extension, splits there. */
  lemma {:induction false} SplitExtOf(root: string, ext: string)
    requires Sep !in root && Sep !in ext
    requires |ext| > 0 && ext[0] == ExtSep && ExtSep !in ext[1..]
    requires !AllDots(root)
    ensures SplitExt(root + ext) == (root, ext)
  {
    var p := root + ext;
    assert forall j :: 0 <= j < |p| ==> p[j] != Sep by {
      forall j | 0 <= j < |p| ensures p[j] != Sep {
        if j < |root| { assert p[j] == root[j]; } else { assert p[j] == ext[j - |root|]; }
      }
    }
    RFindIsLast(p, Sep, -1);
    forall j | |root| < j < |p| ensures p[j] != ExtSep {
      assert p[j] == ext[1..][j - |root| - 1];
    }
    RFindIsLast(p, ExtSep, |root|);
    assert !DotsBetween(p, 0, |root|) by {
      var k :| 0 <= k < |root| && root[k] != ExtSep;
      assert p[k] == root[k];
    }
    assert p[..|root|] == root && p[|root|..] == ext;
  }
}

=== FILE: pipeline.dfy ===
/**
  The batch loop of the transcriber: pick the video files out of a folder listing, then
  for each video decide, from what extraction and transcription produced, whether a
  transcript is saved, whether the temporary audio is removed, and what is reported.
  Extraction, transcription, the listing and the file-existence checks are inputs here.
 */
module Pipeline {
  import opened Wrappers
  import Paths
  import FileNames
  import VideoFiles

  const TempAudioFolder: string := "temp_extracted_audio_from_videos"
  const TranscriptionFolder: string := "video_transcriptions"

  /** One name returned by the folder listing, with whether it is a regular file. */
  datatype DirEntry = DirEntry(name: string, isFile: bool)

  predicate IsVideoEntry(e: DirEntry) {
    e.isFile && VideoFiles.IsSupportedVideo(e.name)
  }

  // ---------------------------------------------------------------------------
  // Scanning the folder
  // ---------------------------------------------------------------------------

  /** `p` is the path of some video entry of the listing. */
  ghost predicate JoinsVideoEntry(folder: string, entries: seq<DirEntry>, p: string) {
    exists e :: e in entries && IsVideoEntry(e) && p == Paths.Join(folder, e.name)
  }

  /** The full paths of the listing's video entries, in listing order. */
  function VideoPaths(folder: string, entries: seq<DirEntry>): (paths: seq<string>)
    ensures |paths| <= |entries|
    ensures forall k :: 0 <= k < |paths| ==> JoinsVideoEntry(folder, entries, paths[k])
    ensures forall e :: e in entries && IsVideoEntry(e) ==> Paths.Join(folder, e.name) in paths
  {
    if |entries| == 0 then []
    else
      var init := entries[..|entries| - 1];
      var last := entries[|entries| - 1];
      var paths := VideoPaths(folder, init)
        + (if IsVideoEntry(last) then [Paths.Join(folder, last.name)] else []);
      VideoPathsStep(folder, entries, init, last, VideoPaths(folder, init), paths);
      paths
  }

  /** One more entry keeps the two directions of `VideoPaths`' contract. */
  lemma VideoPathsStep(folder: string, entries: seq<DirEntry>, init: seq<DirEntry>, last: DirEntry,
                       rest: seq<string>, paths: seq<string>)
    requires |entries| > 0 && init == entries[..|entries| - 1] && last == entries[|entries| - 1]
    requires forall k :: 0 <= k < |rest| ==> JoinsVideoEntry(folder, init, rest[k])
    requires forall e :: e in init && IsVideoEntry(e) ==> Paths.Join(folder, e.name) in rest
    requires paths == rest + (if IsVideoEntry(last) then [Paths.Join(folder, last.name)] else [])
    ensures forall k :: 0 <= k < |paths| ==> JoinsVideoEntry(folder, entries, paths[k])
    ensures forall e :: e in entries && IsVideoEntry(e) ==> Paths.Join(folder, e.name) in paths
  {
    assert entries == init + [last];
    forall k | 0 <= k < |paths| ensures JoinsVideoEntry(folder, entries, paths[k]) {
      if k < |rest| {
        assert JoinsVideoEntry(folder, init, rest[k]);
        var e :| e in init && IsVideoEntry(e) && rest[k] == Paths.Join(folder, e.name);
        assert e in entries;
      } else {
        assert last in entries;
      }
    }
  }

  /** A single entry contributes its joined path exactly when it is a video entry. */
  lemma VideoPathsSingle(folder: string, e: DirEntry)
    ensures VideoPaths(folder, [e]) == if IsVideoEntry(e) then [Paths.Join(folder, e.name)] else []
  {
    VideoPathsSnoc(folder, [], e);
    assert [] + [e] == [e];
  }

  /**
    Selecting from two listings one after the other selects from their concatenation:
    with `VideoPathsSingle`, every video entry gives one path, in listing order.
   */
  lemma {:induction false} VideoPathsConcat(folder: string, a: seq<DirEntry>, b: seq<DirEntry>)
    ensures VideoPaths(folder, a + b) == VideoPaths(folder, a) + VideoPaths(folder, b)
  {
    if |b| == 0 {
      assert a + b == a;
    } else {
      var init := b[..|b| - 1];
      var last := b[|b| - 1];
      assert a + b == (a + init) + [last];
      assert b == init + [last];
      VideoPathsSnoc(folder, a + init, last);
      VideoPathsSnoc(folder, init, last);
      VideoPathsConcat(folder, a, init);
    }
  }

  /** One more entry at the end of the listing adds at most its own path, at the end. */
  lemma VideoPathsSnoc(folder: string, s: seq<DirEntry>, e: DirEntry)
    ensures VideoPaths(folder, s + [e])
            == VideoPaths(folder, s) + if IsVideoEntry(e) then [Paths.Join(folder, e.name)] else []
  {
    assert (s + [e])[..|s|] == s;
  }

  /** The scanning loop: keeps the files whose name has a supported extension. */
  method FindVideos(folder: string, entries: seq<DirEntry>) returns (videos: seq<string>)
    ensures videos == VideoPaths(folder, entries)
  {
    videos := [];
    for i := 0 to |entries|
      invariant videos == VideoPaths(folder, entries[..i])
    {
      var item := entries[i];
      assert entries[..i + 1][..i] == entries[..i];
      if item.isFile && VideoFiles.IsSupportedVideo(item.name) {
        videos := videos + [Paths.Join(folder, item.name)];
      }
    }
    assert entries[..|entries|] == entries;
  }

  // ---------------------------------------------------------------------------
  // File names derived from a video
  // ---------------------------------------------------------------------------

  /**
    Where the extracted audio of a video is written: directly inside the temporary folder,
    named after the sanitized video name.
   */
  function AudioPath(videoPath: string): (p: string)
    ensures p == TempAudioFolder + [Paths.Sep] + Paths.Basename(p)
    ensures Paths.Basename(p) == FileNames.Sanitize(Some(videoPath)) + ".mp3"
  {
    var base := FileNames.Sanitize(Some(videoPath));
    FolderEndsPlain();
    SuffixesHaveNoSep();
    JoinedName(TempAudioFolder, base, ".mp3");
    Paths.Join(TempAudioFolder, base + ".mp3")
  }

  lemma FolderEndsPlain()
    ensures |TempAudioFolder| > 0 && TempAudioFolder[|TempAudioFolder| - 1] != Paths.Sep
    ensures |TranscriptionFolder| > 0 && TranscriptionFolder[|TranscriptionFolder| - 1] != Paths.Sep
  {
  }

  lemma SuffixesHaveNoSep()
    ensures Paths.Sep !in ".mp3" && Paths.Sep !in ".txt"
  {
  }

  /** A separator-free `base + ext` joined onto a folder not ending in `/` is its basename. */
  lemma JoinedName(dir: string, base: string, ext: string)
    requires |dir| > 0 && dir[|dir| - 1] != Paths.Sep
    requires Paths.Sep !in base && Paths.Sep !in ext
    ensures Paths.Join(dir, base + ext) == dir + [Paths.Sep] + (base + ext)
    ensures Paths.Basename(Paths.Join(dir, base + ext)) == base + ext
  {
    assert Paths.Sep !in base + ext;
    Paths.JoinUnder(dir, base + ext);
  }

  /**
    Where the transcript for a base name is written: inside the transcription folder,
    unless the base name is itself an absolute path, which `os.path.join` then keeps alone.
   */
  function TranscriptPath(baseName: string): (p: string)
    ensures |baseName| > 0 && baseName[0] == Paths.Sep ==> p == baseName + ".txt"
    ensures !(|baseName| > 0 && baseName[0] == Paths.Sep) ==>
              p == TranscriptionFolder + [Paths.Sep] + baseName + ".txt"
    ensures Paths.Sep !in baseName ==> Paths.Basename(p) == baseName + ".txt"
  {
    var name := baseName + ".txt";
    if Paths.Sep in baseName then Paths.Join(TranscriptionFolder, name)
    else
      Paths.BasenameOfJoin(TranscriptionFolder, name);
      Paths.Join(TranscriptionFolder, name)
  }

  // ---------------------------------------------------------------------------
  // One video
  // ---------------------------------------------------------------------------

  /** What is reported for one video. */
  datatype Report = ExtractionFailed | TranscriptionFailed | TranscriptSaved

  /** A transcript to write: the text under the sanitized base name. */
  datatype SaveRequest = SaveRequest(baseName: string, text: string)

  /**
    The actions taken for one video: the audio file submitted for transcription, the
    transcript saved, the temporary audio file removed, and the report.
   */
  datatype Decision = Decision(
    transcribe: Option<string>,
    save: Option<SaveRequest>,
    removeAudio: Option<string>,
    report: Report)

  /** Extraction gave a non-empty path and that file exists. */
  predicate AudioReady(extracted: Option<string>, audioExists: bool) {
    extracted.Some? && extracted.value != [] && audioExists
  }

  /**
    The body of the per-video loop. `extracted` is what extraction returned, `audioExists`
    whether that file exists afterwards, and `transcript` what transcription returns when
    it is called (`None` for failure, any string, even empty, for success).
   */
  function Decide(videoPath: string, extracted: Option<string>, audioExists: bool,
                  transcript: Option<string>): (d: Decision)
    ensures d.transcribe.Some? <==> AudioReady(extracted, audioExists)
    ensures d.transcribe.Some? ==> d.transcribe.value == extracted.value
    ensures d.removeAudio == d.transcribe
    ensures d.save.Some? <==> d.transcribe.Some? && transcript.Some?
    ensures d.save.Some? ==> d.save.value.text == transcript.value
    ensures d.save.Some? ==> d.save.value.baseName == FileNames.Sanitize(Some(videoPath))
    ensures d.report == ExtractionFailed <==> d.transcribe.None?
    ensures d.report == TranscriptSaved <==> d.save.Some?
  {
    if AudioReady(extracted, audioExists) then
      var audio := extracted.value;
      FileNames.SanitizeBasename(videoPath);
      var baseName := FileNames.Sanitize(Some(Paths.Basename(videoPath)));
      match transcript
      case Some(text) => Decision(Some(audio), Some(SaveRequest(baseName, text)), Some(audio), TranscriptSaved)
      case None => Decision(Some(audio), None, Some(audio), TranscriptionFailed)
    else
      Decision(None, None, None, ExtractionFailed)
  }

  // ---------------------------------------------------------------------------
  // The whole folder
  // ---------------------------------------------------------------------------

  /** What extraction and transcription produce for one video path. */
  datatype VideoRun = VideoRun(extracted: Option<string>, audioExists: bool, transcript: Option<string>)

  function DecideRun(videoPath: string, run: VideoRun): Decision {
    Decide(videoPath, run.extracted, run.audioExists, run.transcript)
  }

  /**
    The per-video loop: one decision per video, in order, each from that video's own
    extraction and transcription results. A failure reported for one video does not end the
    loop. The file system shared between videos (one temporary audio path for all of them,
    folder creation outside any error handling) is not modelled.
   */
  function DecideAll(videos: seq<string>, runs: string -> VideoRun): (ds: seq<Decision>)
    ensures |ds| == |videos|
    ensures forall i :: 0 <= i < |videos| ==> ds[i] == DecideRun(videos[i], runs(videos[i]))
  {
    if |videos| == 0 then []
    else [DecideRun(videos[0], runs(videos[0]))] + DecideAll(videos[1..], runs)
  }

  datatype FolderOutcome =
    | FolderNotFound
    | NoVideosFound
    | Processed(videos: seq<string>, decisions: seq<Decision>)

  /** `process_video_folder`. */
  function ProcessFolder(folder: string, isDir: bool, entries: seq<DirEntry>,
                         runs: string -> VideoRun): (r: FolderOutcome)
    ensures r == FolderNotFound <==> !isDir
    ensures r == NoVideosFound <==> isDir && VideoPaths(folder, entries) == []
    ensures r.Processed? ==> r.videos == VideoPaths(folder, entries) && |r.videos| > 0
    ensures r.Processed? ==> |r.decisions| == |r.videos|
    ensures r.Processed? ==> forall i :: 0 <= i < |r.videos| ==>
              r.decisions[i] == DecideRun(r.videos[i], runs(r.videos[i]))
  {
    if !isDir then FolderNotFound
    else
      var videos := VideoPaths(folder, entries);
      if videos == [] then NoVideosFound
      else Processed(videos, DecideAll(videos, runs))
  }

  // ---------------------------------------------------------------------------
  // Properties
  // ---------------------------------------------------------------------------

  /** A successful but empty transcription is still saved, as an empty transcript. */
  lemma EmptyTranscriptSaved(videoPath: string, audio: string)
    requires audio != []
    ensures Decide(videoPath, Some(audio), true, Some("")).save
              == Some(SaveRequest(FileNames.Sanitize(Some(videoPath)), ""))
  {
  }

  /** Whether the audio is removed does not depend on what transcription returned. */
  lemma CleanupIgnoresTranscript(videoPath: string, extracted: Option<string>, audioExists: bool,
                                 t1: Option<string>, t2: Option<string>)
    ensures Decide(videoPath, extracted, audioExists, t1).removeAudio
            == Decide(videoPath, extracted, audioExists, t2).removeAudio
  {
  }

  /**
    The transcript of a listed video is named after the same sanitized base as its audio
    file, and that base depends only on the entry's name, not on the folder.
   */
  lemma TranscriptNamedLikeAudio(folder: string, name: string, run: VideoRun)
    requires Paths.Sep !in name
    requires DecideRun(Paths.Join(folder, name), run).save.Some?
    ensures var base := DecideRun(Paths.Join(folder, name), run).save.value.baseName;
      base == FileNames.Sanitize(Some(name)) &&
      AudioPath(Paths.Join(folder, name)) == Paths.Join(TempAudioFolder, base + ".mp3")
  {
    FileNames.SanitizeJoin(folder, name);
  }

  /**
    Two names that differ only in their supported extension are both accepted and share one
    transcript path, as long as the rest is free of `/` and not only dots. When both
    transcripts are saved, the later write replaces the earlier one.
   */
  lemma TranscriptShared(root: string, e1: string, e2: string)
    requires Paths.Sep !in root && !Paths.AllDots(root)
    requires e1 in VideoFiles.SupportedVideoExtensions && e2 in VideoFiles.SupportedVideoExtensions
    ensures VideoFiles.IsSupportedVideo(root + e1) && VideoFiles.IsSupportedVideo(root + e2)
    ensures TranscriptPath(FileNames.Sanitize(Some(root + e1)))
            == TranscriptPath(FileNames.Sanitize(Some(root + e2)))
  {
    VideoFiles.ExtensionAccepted(root, e1);
    VideoFiles.ExtensionAccepted(root, e2);
    VideoFiles.ExtensionShape(e1);
    VideoFiles.ExtensionShape(e2);
    FileNames.SanitizeIgnoresExtension(root, e1, e2);
  }

  /** `a.mp4` and `a.mkv` are both accepted and share one transcript path. */
  lemma TranscriptCollision()
    ensures VideoFiles.IsSupportedVideo("a.mp4") && VideoFiles.IsSupportedVideo("a.mkv")
    ensures TranscriptPath(FileNames.Sanitize(Some("a.mp4")))
            == TranscriptPath(FileNames.Sanitize(Some("a.mkv")))
  {
    SupportedExamples();
    SameStem();
  }

  lemma SupportedExamples()
    ensures VideoFiles.IsSupportedVideo("a.mp4") && VideoFiles.IsSupportedVideo("a.mkv")
  {
    assert VideoFiles.Lower("a.mp4") == "a.mp4";
    assert VideoFiles.EndsWith("a.mp4", ".mp4");
    assert VideoFiles.Lower("a.mkv") == "a.mkv";
    assert VideoFiles.EndsWith("a.mkv", ".mkv");
  }

  lemma SameStem()
    ensures FileNames.Sanitize(Some("a.mp4")) == FileNames.Sanitize(Some("a.mkv"))
  {
    assert "a"[0] != Paths.ExtSep;
    assert "a.mp4" == "a" + ".mp4" && "a.mkv" == "a" + ".mkv";
    FileNames.SanitizeIgnoresExtension("a", ".mp4", ".mkv");
  }
}

=== FILE: videofiles.dfy ===
/**
  Which directory entries the transcriber treats as videos: those whose lower-cased name
  ends with one of eleven extensions (`name.lower().endswith(SUPPORTED_VIDEO_EXTENSIONS)`).
 */
module VideoFiles {
  import Paths
  import FileNames

  /** The supported extensions, in the order the program lists them. */
  const SupportedVideoExtensions: seq<string> :=
    [".mp4", ".mkv", ".avi", ".mov", ".webm", ".flv", ".mpeg", ".mpg", ".wmv", ".ts", ".m2ts"]

  const KelvinSign: char := '\U{212A}'

  /**
    Python's `str.lower` on one character, as far as a suffix test against the extensions
    can tell: ASCII capitals become small letters, and KELVIN SIGN becomes the ASCII `k`.
    Every other character is kept. Its real lower case is either non-ASCII text, or (for
    LATIN CAPITAL LETTER I WITH DOT ABOVE) `i` followed by a combining mark. No extension
    holds such text, so the suffix test comes out the same.
   */
  function LowerChar(c: char): (l: char)
    ensures 'A' <= c <= 'Z' ==> 'a' <= l <= 'z' && l as int - c as int == 32
    ensures c == KelvinSign ==> l == 'k'
    ensures !('A' <= c <= 'Z') && c != KelvinSign ==> l == c
  {
    if 'A' <= c <= 'Z' then (c as int + 32) as char
    else if c == KelvinSign then 'k'
    else c
  }

  /** `s.lower()`, character by character. */
  function Lower(s: string): (r: string)
    ensures |r| == |s|
    ensures forall k :: 0 <= k < |s| ==> r[k] == LowerChar(s[k])
  {
    seq(|s|, k requires 0 <= k < |s| => LowerChar(s[k]))
  }

  /** Lower-casing a lower-cased name changes nothing. */
  lemma LowerIdempotent(s: string)
    ensures Lower(Lower(s)) == Lower(s)
  {
    var l := Lower(s);
    assert forall k :: 0 <= k < |l| ==> LowerChar(l[k]) == l[k];
  }

  /** `s.endswith(suffix)`. */
  predicate EndsWith(s: string, suffix: string) {
    |suffix| <= |s| && s[|s| - |suffix|..] == suffix
  }

  /** `s.endswith(suffixes)` for a tuple of suffixes: true when any of them ends `s`. */
  function EndsWithAny(s: string, suffixes: seq<string>): (b: bool)
    ensures b <==> exists i :: 0 <= i < |suffixes| && EndsWith(s, suffixes[i])
  {
    if |suffixes| == 0 then false
    else EndsWith(s, suffixes[0]) || EndsWithAny(s, suffixes[1..])
  }

  /** The extension filter: the lower-cased name ends with a supported extension. */
  function IsSupportedVideo(name: string): (b: bool)
    ensures b <==> exists e :: e in SupportedVideoExtensions && EndsWith(Lower(name), e)
  {
    var b := EndsWithAny(Lower(name), SupportedVideoExtensions);
    assert b ==> exists e :: e in SupportedVideoExtensions && EndsWith(Lower(name), e);
    assert (exists e :: e in SupportedVideoExtensions && EndsWith(Lower(name), e)) ==> b by {
      if e :| e in SupportedVideoExtensions && EndsWith(Lower(name), e) {
        var i :| 0 <= i < |SupportedVideoExtensions| && SupportedVideoExtensions[i] == e;
      }
    }
    b
  }

  /** The filter does not care about case: a name and its lower-cased form agree. */
  lemma SupportedIgnoresCase(name: string)
    ensures IsSupportedVideo(name) == IsSupportedVideo(Lower(name))
  {
    LowerIdempotent(name);
  }

  /** Each supported extension is one dot followed by dot-free, separator-free characters. */
  lemma ExtensionShape(e: string)
    requires e in SupportedVideoExtensions
    ensures |e| > 1 && e[0] == Paths.ExtSep
    ensures Paths.ExtSep !in e[1..] && Paths.Sep !in e
  {
  }

  /** The extensions are written in lower case: lower-casing leaves each one unchanged. */
  lemma ExtensionLowerCase(e: string)
    requires e in SupportedVideoExtensions
    ensures Lower(e) == e
  {
    assert forall k :: 0 <= k < |e| ==> 'a' <= e[k] <= 'z' || '0' <= e[k] <= '9' || e[k] == '.';
  }

  /** Any name followed by a supported extension is accepted. */
  lemma ExtensionAccepted(root: string, e: string)
    requires e in SupportedVideoExtensions
    ensures IsSupportedVideo(root + e)
  {
    ExtensionLowerCase(e);
    var n := root + e;
    var l := Lower(n);
    forall k | 0 <= k < |e| ensures l[|root| + k] == e[k] {
      assert n[|root| + k] == e[k];
      assert LowerChar(e[k]) == Lower(e)[k];
    }
    assert l[|l| - |e|..] == e;
  }

  /** Lower-casing never produces or removes a dot or a separator. */
  lemma LowerKeepsPunctuation(c: char)
    ensures LowerChar(c) == Paths.ExtSep <==> c == Paths.ExtSep
    ensures LowerChar(c) == Paths.Sep <==> c == Paths.Sep
  {
  }

  /**
    For a video name without separator, the transcript's stem is the name minus exactly the
    matched extension (in its original case), unless the rest is only dots.
   */
  lemma VideoStem(name: string, e: string)
    requires e in SupportedVideoExtensions && EndsWith(Lower(name), e)
    requires Paths.Sep !in name
    requires !Paths.AllDots(name[..|name| - |e|])
    ensures FileNames.Stem(name) == name[..|name| - |e|]
  {
    ExtensionShape(e);
    var root := name[..|name| - |e|];
    var ext := name[|name| - |e|..];
    assert name == root + ext;
    SuffixShape(name, e);
    assert Paths.Sep !in root by {
      forall k | 0 <= k < |root| ensures root[k] != Paths.Sep { assert root[k] == name[k]; }
    }
    FileNames.StemOfSplit(name, root, ext);
  }

  /** Under a matched suffix, each original character lower-cases to the suffix's character. */
  lemma MatchedSuffix(name: string, e: string)
    requires EndsWith(Lower(name), e)
    ensures forall k :: 0 <= k < |e| ==> LowerChar(name[|name| - |e| + k]) == e[k]
  {
    var n := |name| - |e|;
    var l := Lower(name);
    assert l[n..] == e;
    forall k | 0 <= k < |e| ensures LowerChar(name[n + k]) == e[k] {
      assert e[k] == l[n..][k] == l[n + k];
    }
  }

  /** The original-case text under a matched extension has the extension's shape. */
  lemma SuffixShape(name: string, e: string)
    requires |e| > 1 && e[0] == Paths.ExtSep && Paths.ExtSep !in e[1..] && Paths.Sep !in e
    requires EndsWith(Lower(name), e)
    ensures var ext := name[|name| - |e|..];
      ext[0] == Paths.ExtSep && Paths.ExtSep !in ext[1..] && Paths.Sep !in ext
  {
    MatchedSuffix(name, e);
    var n := |name| - |e|;
    var ext := name[n..];
    forall k | 0 <= k < |ext| ensures ext[k] != Paths.Sep {
      assert ext[k] == name[n + k];
      LowerKeepsPunctuation(name[n + k]);
      assert e[k] in e;
    }
    LowerKeepsPunctuation(name[n]);
    assert ext[0] == name[n];
    forall k | 0 <= k < |ext| - 1 ensures ext[1..][k] != Paths.ExtSep {
      assert ext[1..][k] == name[n + k + 1];
      LowerKeepsPunctuation(name[n + k + 1]);
      assert e[k + 1] == e[1..][k];
    }
  }

  // ---------------------------------------------------------------------------
  // Worked examples
  // ---------------------------------------------------------------------------

  /** Upper-case extensions are accepted. */
  lemma UpperCaseAccepted()
    ensures IsSupportedVideo("A.MP4")
  {
    assert Lower("A.MP4") == "a.mp4";
    assert EndsWith("a.mp4", ".mp4");
  }

  /** A video extension followed by another extension is rejected. */
  lemma TrailingExtensionRejected()
    ensures !IsSupportedVideo("x.mp4.txt")
  {
    var l := Lower("x.mp4.txt");
    assert l == "x.mp4.txt";
    forall e | e in SupportedVideoExtensions ensures !EndsWith(l, e) {
      assert l[|l| - 1] == 't' && l[|l| - 2] == 'x';
    }
  }
}

=== FILE: wrappers.dfy ===
/** The optional values the transcriber passes around: Python's `None` versus a value. */
module Wrappers {

  /** `None` stands for Python's `None`; `Some(v)` for any other value, including `""`. */
  datatype Option<T> = None | Some(value: T)
}
